=== FILE: README.md ===
# Flood vulnerability and cloudburst rules, modelled in Dafny

The back end of the cloudburst prediction and risk analysis system has two
Python modules. Around their network calls, the fuzzy controller and the
trained regressor, both hold small pieces of deterministic logic. This
project models that logic as pure Dafny functions and proves its properties.

* `APIs/FVI_Fuzzy.py` computes the flood vulnerability index (FVI). The
  modelled part covers:
  * the Uttarakhand district table and its case- and whitespace-insensitive
    lookup;
  * the socio-economic defaults and the capped imperviousness estimate;
  * the clamping of the six fuzzy inputs;
  * the score-to-label bands;
  * the key-factor list;
  * the additive fallback score used when the fuzzy controller raises.
* `APIs/cloudburst_predictor.py` prepares the regressor's features. The
  modelled part covers:
  * the WMO weather-code classes;
  * the degrees-to-compass conversion and its integer encoding;
  * the inverted day/night flag;
  * the current-hour index and the "value at index or default" getter;
  * the clamp of the regressor output to an integer percentage.

Files:

| file | module | contents |
|---|---|---|
| `wrappers.dfy` | `Wrappers` | `Option`, standing in for Python's `None` and for caught exceptions |
| `numeric.dfy` | `Numeric` | `min`/`max` clamping, `int()` truncation toward zero, `round()` with ties to even |
| `strings.dfy` | `Strings` | `str.strip()`, `str.lower()`, and `int()`/`float()` on text |
| `values.dfy` | `Values` | the dynamically typed JSON values the encoders receive |
| `fvi.dfy` | `FloodVulnerability` | the rules of `FVI_Fuzzy.py` |
| `cloudburst.dfy` | `Cloudburst` | the encoders of `cloudburst_predictor.py` |

Modelling choices:

* Python floats are Dafny `real`s, so the arithmetic is exact.
* `int()` on a float truncates toward zero (`Numeric.Trunc`). This differs
  from flooring for negative angles, and `Cloudburst.NegativeAnglesLeanNorth`
  shows the effect.
* `round()` rounds half to even (`Numeric.RoundHalfEven`). Its contract
  characterises the result completely, and `RoundHalfEvenUnique` proves that.
* The fuzzy controller is the parameter `fuzzy` of `CalculateFvi`. It
  returns the controller's output for the processed inputs, or `None` where
  the computation raises.
* The regressor is the input of `Probability`.
* The fetched measurements are the fields of `Observations`.
* A JSON value is a `Values.Value`: an integer, a finite float, a string,
  null, or a list or dict. This lets "cannot be converted" mean what it means
  in Python. For example, `int("61")` succeeds, `int("6.1")` raises, a dict
  lookup with `1.0` finds the key `1`, and a dict lookup with a list raises
  `TypeError`.
* An exception that `predict_cloudburst` does not catch is a `None` result of
  `BuildFeatures`.

## Model

| member | source | states |
|---|---|---|
| FloodVulnerability.DistrictToCoords | APIs/FVI_Fuzzy.py:37-42 | An entry is returned exactly when the stripped, lower-cased name is a key of the seven-district table; its latitude, longitude and socio-economic fields are then returned unchanged. Otherwise the result is None. |
| FloodVulnerability.DistrictToCoordsIgnoresCase | APIs/FVI_Fuzzy.py:38 | Lower-casing the name first does not change the lookup result. |
| FloodVulnerability.DistrictToCoordsIgnoresPadding | APIs/FVI_Fuzzy.py:38 | Any whitespace before and after the name does not change the lookup result. |
| FloodVulnerability.DistrictToCoordsFindsEveryKey | APIs/FVI_Fuzzy.py:27-41 | Each of the seven table keys finds its own entry. |
| Strings.StripPadded | APIs/FVI_Fuzzy.py:38 | `strip()` removes exactly the whitespace runs around a text with no whitespace at its edges. |
| Strings.Strip | APIs/FVI_Fuzzy.py:38 | `strip()` leaves no whitespace at either end and never lengthens the text. |
| Strings.StripSplit | APIs/FVI_Fuzzy.py:38 | The text is the stripped text with whitespace before and after it, so `strip()` removes only edge whitespace. |
| Strings.Lower | APIs/FVI_Fuzzy.py:38 | The modelled `lower()` keeps the length, lower-cases each character on its own, and leaves no capital A–Z. |
| Strings.StripAbsorbsPadding | APIs/FVI_Fuzzy.py:38 | Adding whitespace around any string does not change what `strip()` returns. |
| Strings.LowerStripCommute | APIs/FVI_Fuzzy.py:38 | Lower-casing and stripping commute, because lower-casing neither creates nor removes whitespace. |
| FloodVulnerability.GetSocioeconomic | APIs/FVI_Fuzzy.py:182-200 | Each field is taken from the district dict when the dict holds its key, and is the default 180/25/40 otherwise; the separate missing-or-empty test changes nothing. Imperviousness is the smaller of 95 and 0.8·urbanization + 0.3·development pressure, so it is never above 95. |
| FloodVulnerability.DefaultImperviousness | APIs/FVI_Fuzzy.py:188-194 | With no dict, or an empty one, imperviousness is 32. |
| FloodVulnerability.ImperviousnessMonotone | APIs/FVI_Fuzzy.py:194 | More urbanization or more development pressure never lowers imperviousness. |
| FloodVulnerability.ClampInputs | APIs/FVI_Fuzzy.py:305-312 | After clamping, each input is in its range: rainfall [0,200], slope [0,45], imperviousness [0,100], distance [0,10000], soil moisture [0,1], elevation [0,3000]. Each field is clamped on its own to the nearer bound of its range, so inputs already in range are unchanged. |
| FloodVulnerability.ClampInputsIdempotent | APIs/FVI_Fuzzy.py:305-312 | Clamping a second time changes nothing. |
| Numeric.Clamp | APIs/FVI_Fuzzy.py:306 | `max(lo, min(x, hi))` lies in [lo, hi]. It equals x inside the range and the nearer bound outside it. |
| FloodVulnerability.Interpret | APIs/FVI_Fuzzy.py:333-338 | The label's band contains the score. The bands have inclusive upper bounds 25/45/65/85, and "Very High" covers everything above 85. |
| FloodVulnerability.InterpretExactlyBand | APIs/FVI_Fuzzy.py:333-338 | The bands do not overlap, so a label is returned exactly when the score lies in its band. |
| FloodVulnerability.InterpretMonotone | APIs/FVI_Fuzzy.py:333-338 | A higher score never gets a lower label. |
| FloodVulnerability.FiredFactors | APIs/FVI_Fuzzy.py:341-361 | The five rules together yield at most five entries, in rule order, each about a different input. |
| FloodVulnerability.KeyFactors | APIs/FVI_Fuzzy.py:341-364 | The list has between one and five entries and holds at most one entry per input, in rule order. It is exactly ["Moderate risk from combined factors"] when no threshold fires. |
| FloodVulnerability.KeyFactorsRainfall | APIs/FVI_Fuzzy.py:342-345 | A heavy-rainfall entry appears exactly when rainfall ≥ 50. A moderate-rainfall entry appears exactly when 20 ≤ rainfall < 50. |
| FloodVulnerability.KeyFactorsImperviousness | APIs/FVI_Fuzzy.py:347-350 | A high-imperviousness entry appears exactly when imperviousness ≥ 60. A moderate-imperviousness entry appears exactly when 40 ≤ imperviousness < 60. |
| FloodVulnerability.KeyFactorsWater | APIs/FVI_Fuzzy.py:352-355 | A very-close-to-water entry appears exactly when distance ≤ 500. A close-to-water entry appears exactly when 500 < distance ≤ 2000. |
| FloodVulnerability.KeyFactorsTerrain | APIs/FVI_Fuzzy.py:357-361 | A low-elevation entry appears exactly when elevation ≤ 400. A flat-terrain entry appears exactly when slope ≤ 5. |
| FloodVulnerability.KeyFactorsCarryInputs | APIs/FVI_Fuzzy.py:341-364 | Every entry reports the processed input it is about. The combined-factors entry appears only when no threshold fires. |
| FloodVulnerability.RainfallPoints | APIs/FVI_Fuzzy.py:387-392 | Rainfall adds exactly one of 25 (≥100), 15 (≥50), 8 (≥20) or 0 points. |
| FloodVulnerability.ImperviousnessPoints | APIs/FVI_Fuzzy.py:395-400 | Imperviousness adds exactly one of 20 (≥70), 12 (≥50), 6 (≥30) or 0 points. |
| FloodVulnerability.WaterPoints | APIs/FVI_Fuzzy.py:403-408 | Water proximity adds exactly one of 15 (≤100), 10 (≤500), 5 (≤2000) or 0 points. |
| FloodVulnerability.ElevationPoints | APIs/FVI_Fuzzy.py:411-414 | Elevation adds exactly one of 10 (≤300), 5 (≤600) or 0 points. |
| FloodVulnerability.SlopePoints | APIs/FVI_Fuzzy.py:417-420 | Slope adds +5 (≤3), −5 (≥25) or 0 points. |
| FloodVulnerability.FallbackScore | APIs/FVI_Fuzzy.py:382-422 | The score is the base 30 plus the five contributions, capped at 100. That sum lies in [25, 105], so the result is a whole number in [25, 100] and only the upper clamp can take effect. |
| FloodVulnerability.FallbackMonotoneRainfall | APIs/FVI_Fuzzy.py:387-392 | More rainfall never lowers the fallback score. |
| FloodVulnerability.FallbackMonotoneImperviousness | APIs/FVI_Fuzzy.py:395-400 | More imperviousness never lowers the fallback score. |
| FloodVulnerability.FallbackAntitoneDistance | APIs/FVI_Fuzzy.py:403-408 | A larger distance to water never raises the fallback score. |
| FloodVulnerability.FallbackAntitoneElevation | APIs/FVI_Fuzzy.py:411-414 | A higher elevation never raises the fallback score. |
| FloodVulnerability.FallbackAntitoneSlope | APIs/FVI_Fuzzy.py:417-420 | A steeper slope never raises the fallback score. |
| FloodVulnerability.FallbackIgnoresSoilMoisture | APIs/FVI_Fuzzy.py:382-422 | Soil moisture has no effect on the fallback score. |
| FloodVulnerability.FallbackReachesCap | APIs/FVI_Fuzzy.py:384-422 | With every factor at its worst, the contributions sum to 105 and the score is clamped to 100. |
| FloodVulnerability.ProcessedInputs | APIs/FVI_Fuzzy.py:305-312 | Rainfall, slope, distance to water, soil moisture and elevation come from the matching observation, and imperviousness from the socio-economic estimate. Each is clamped to its range. |
| FloodVulnerability.UnroundedScore | APIs/FVI_Fuzzy.py:316-330 | The score is the controller's output for the processed inputs, or the fallback score of those inputs when the controller raises. |
| FloodVulnerability.CalculateFvi | APIs/FVI_Fuzzy.py:288-380 | The socio-economic estimate is that of the district information. The processed inputs are the clamped observations and imperviousness. The key factors are those of the processed inputs. The reported score is the unrounded score rounded to two decimals, and the label is the band of the unrounded score. When the controller fails, the score is the fallback score and lies in [0, 100]. |
| FloodVulnerability.CalculateFviControllerOnlyScores | APIs/FVI_Fuzzy.py:316-369 | The controller affects only the score and label. The estimate, processed inputs and key factors are the same for any controller, and two controllers that agree on the processed inputs give the same result. |
| FloodVulnerability.WholeScoresRoundToThemselves | APIs/FVI_Fuzzy.py:368 | Rounding to two decimals leaves a whole-number score, such as any fallback score, unchanged. |
| FloodVulnerability.LabelUsesUnroundedScore | APIs/FVI_Fuzzy.py:368-369 | A controller output of 25.004 is reported as 25.0 but labelled "Low", because the label is computed from the unrounded score. |
| Numeric.RoundTo2 | APIs/FVI_Fuzzy.py:368 | `round(x, 2)` is within 0.005 of x and is a whole number of hundredths, namely `round(100·x)` of them. |
| Numeric.RoundTo2Nearest | APIs/FVI_Fuzzy.py:368 | No multiple of 0.01 is nearer to x than `round(x, 2)`. |
| Numeric.RoundTo2Idempotent | APIs/FVI_Fuzzy.py:368 | Rounding a reported score to two decimals again changes nothing. |
| Cloudburst.EncodeCode | APIs/cloudburst_predictor.py:19-31 | A table code maps to a class whose WMO group contains it. Any code outside the table maps to 0. Every result is in 0..7. `EncodeCodeClasses` pins the class exactly. |
| Cloudburst.EncodeCodeClasses | APIs/cloudburst_predictor.py:19-29 | A code maps to class k exactly when it is in k's WMO group (thunderstorm {95,96,99}, fog {45,48}, and so on), or when k is 0 and the code is outside the table. |
| Cloudburst.TableCodesAreGrouped | APIs/cloudburst_predictor.py:19-29 | The table's keys are exactly the codes of the eight groups. |
| Cloudburst.EncodeWeatherCode | APIs/cloudburst_predictor.py:18-33 | The result is in 0..7. A value `int()` rejects maps to 0. Any other value maps to the class of `int(value)`. Text containing an ASCII separator U+001C–U+001F is rejected, because `int()` does not trim those characters (`SeparatorPaddedCodeIsRejected`). |
| Cloudburst.SeparatorPaddedCodeIsRejected | APIs/cloudburst_predictor.py:30-33 | The code text "\x1c61" encodes as 0. `int()` raises on it and the bare `except` returns 0, although `str.strip()` would remove the separator. |
| Cloudburst.EncodeWeatherCodeOfNumeral | APIs/cloudburst_predictor.py:31 | A code written as a decimal string encodes like the integer itself. |
| Strings.ParseIntOfIntToString | APIs/cloudburst_predictor.py:31 | `int(str(n)) == n`. |
| Strings.ParseFiniteFloatOfIntToString | APIs/cloudburst_predictor.py:38 | `float(str(n)) == n`. |
| Values.ToInt | APIs/cloudburst_predictor.py:31 | `int()` of a number truncates its value toward zero. Any string it accepts is read by `float()` as the same number. Null, lists and dicts raise, and so does text containing an ASCII separator U+001C–U+001F. |
| Values.ToFiniteFloat | APIs/cloudburst_predictor.py:38 | `float()` of a number is its own value. Null, lists and dicts raise, and so does text containing an ASCII separator U+001C–U+001F. |
| Strings.ParseInt | APIs/cloudburst_predictor.py:31 | `int()` on text accepts only text that `float()` reads as the same number. It rejects any text containing an ASCII separator U+001C–U+001F, which `str.isspace()` accepts but `int()` does not trim. |
| Strings.IntTextIsFloatText | APIs/cloudburst_predictor.py:31-38 | Every text `int()` accepts, `float()` accepts as the same number. |
| Strings.ParseFiniteFloat | APIs/cloudburst_predictor.py:38 | `float()` reads ASCII digits, padded with whitespace other than the separators U+001C–U+001F, as their decimal value. It rejects the names of infinity and NaN, with or without a sign, and any text containing a separator. |
| Values.IntegralKey | APIs/cloudburst_predictor.py:168 | A value equals an integer dictionary key exactly when it is a number with an integral value, and the key is that value. |
| Values.ToIntOfNumeral | APIs/cloudburst_predictor.py:31 | A numeral string converts back to its integer under `int()`, and to that integer as a float under `float()`. |
| Cloudburst.SectorOf | APIs/cloudburst_predictor.py:39 | For angles ≥ −22.5, the direction is the one at position ⌊(x + 22.5)/45⌋ mod 8 clockwise from north. Below −22.5, truncation rounds the quotient up instead, to position ⌈(x + 22.5)/45⌉ mod 8, so −100° gives "NW" where flooring would give "W". Every angle in (−67.5, 22.5) is north. |
| Cloudburst.DegreesToCardinal | APIs/cloudburst_predictor.py:35-41 | Every input gets one of the eight directions. A value that `float()` cannot turn into a finite number gives "N". This includes text with an ASCII separator (`SeparatorPaddedAngleIsNorth`). A number gives its sector. |
| Cloudburst.SeparatorPaddedAngleIsNorth | APIs/cloudburst_predictor.py:37-41 | The angle text "\x1c90" gives "N", because `float()` raises on it. |
| Cloudburst.CardinalSector | APIs/cloudburst_predictor.py:36-39 | A non-negative angle in [centre − 22.5, centre + 22.5) of a direction's sector, in any turn, gives that direction. |
| Cloudburst.CardinalPeriodic | APIs/cloudburst_predictor.py:39 | For angles ≥ 0, adding 360 degrees does not change the direction. |
| Cloudburst.NorthBand | APIs/cloudburst_predictor.py:36-39 | Angles in [0, 22.5) and in [337.5, 360) give "N". |
| Cloudburst.NegativeAnglesLeanNorth | APIs/cloudburst_predictor.py:39 | Truncation makes every angle in (−67.5, 22.5) "N", so −30 and 330 degrees get different directions, and −100 degrees gives "NW". |
| Numeric.Trunc | APIs/cloudburst_predictor.py:39 | `int(x)` is the integer next to x on the side of zero. |
| Numeric.TruncOdd | APIs/cloudburst_predictor.py:39 | `int(-x) == -int(x)`. |
| Cloudburst.WindDirectionMappingTotal | APIs/cloudburst_predictor.py:15-39 | Every direction name is a key of `wind_direction_mapping`, with a code in 0..7, and different directions get different codes. |
| Cloudburst.EncodeWindDirection | APIs/cloudburst_predictor.py:164-165 | The encoded direction is the mapping's code for the produced name and lies in 0..7. The default 1 is never used. |
| Cloudburst.EncodeIsDay | APIs/cloudburst_predictor.py:167-168 | The lookup raises (None) exactly for a list or dict. Otherwise the result is 0 or 1, and it is 1 exactly when the value equals 0, as an integer or a float. |
| Cloudburst.EncodeIsDaySwaps | APIs/cloudburst_predictor.py:16 | The flag maps 1 to 0 and 0 to 1, so applying it twice restores the flag. |
| Cloudburst.FirstIndex | APIs/cloudburst_predictor.py:143 | The result is the position of the first occurrence, or None exactly when the element is absent. |
| Cloudburst.HourIndex | APIs/cloudburst_predictor.py:141-143 | The index is the first position of the current time in the hourly time list, or 0 when the time is absent. |
| Cloudburst.HourIndexIsFirst | APIs/cloudburst_predictor.py:141-143 | When the current time first occurs at position i, the hour index is i. |
| Cloudburst.SeriesValue | APIs/cloudburst_predictor.py:146-148 | The getter returns `vals[idx]` exactly when the series exists and idx < len. Otherwise it returns the default. The non-empty test is implied by the length test. |
| Cloudburst.BuildFeatures | APIs/cloudburst_predictor.py:140-173 | The assembly raises (None) exactly when the day-flag value at the hour index is a list or dict. Otherwise each hourly feature is `get` of its series at the hour index, with the previous-week average as default (1 for the day flag). The wind direction, day flag and weather class are the encodings of their inputs, in 0..7, 0..1 and 0..7. A missing day flag encodes as 0. |
| Cloudburst.BuildFeaturesCurrentHour | APIs/cloudburst_predictor.py:140-173 | For each series aligned with the time stamps, the feature is that series' entry at the first occurrence of the current time. This holds for humidity, pressure, cloud cover, temperature and the day flag before encoding. |
| Cloudburst.Probability | APIs/cloudburst_predictor.py:185 | The result is an integer in [0, 100] for any regressor output. It is 0 exactly when the output is ≤ 0.5 and 100 exactly when the output is ≥ 99.5 (ties to even). Between those bounds it is `round()` of the output, so an exact half gives the even neighbour (2.5 gives 2). |
| Cloudburst.ProbabilityMonotone | APIs/cloudburst_predictor.py:185 | A larger regressor output never gives a smaller probability. |
| Numeric.RoundHalfEven | APIs/cloudburst_predictor.py:185 | `round(x)` is within ½ of x, and it is even when x lies exactly halfway between two integers. |
| Numeric.RoundHalfEvenUnique | APIs/cloudburst_predictor.py:185 | Those two properties single out one integer. |
| Numeric.RoundHalfEvenNearest | APIs/cloudburst_predictor.py:185 | No integer is nearer to x than `round(x)`. |
| Numeric.RoundHalfEvenMonotone | APIs/cloudburst_predictor.py:185 | `round` never decreases. |

## Left out

- Network I/O and caching are not modelled: `get_weather_data`, `get_elevation`, `_sample_nearby_elevations`, `get_hydrology`, `get_previous_week_data` and the request in `predict_cloudburst`. Their results enter the model as parameters (`Observations`, `Historical`, the hourly series).
- `estimate_slope` is not modelled. It is arctangent arithmetic over fetched samples, and the slope enters as a parameter.
- `build_fuzzy_system` and the skfuzzy simulation are library internals. The controller is the parameter `fuzzy` of `CalculateFvi`, so nothing is assumed about its output range.
- The scaler and regressor loaded with joblib are opaque trained models. Their output is the input of `Probability`.
- The daily figures passed to the regressor unchanged are not modelled. These are the first element of each daily series, and their `IndexError`/`KeyError` when a series is missing or empty is not modelled either.
- BuildFeatures: the daily wind direction and weather code enter as parameters. The lookups `daily["winddirection_10m_dominant"][0]` and `daily["weathercode"][0]` are not modelled, and they raise `KeyError`/`IndexError` for a missing or empty series. So "None exactly for an unhashable day flag" holds given those two values.
- SeriesValue: each hourly entry is modelled as a JSON array or null. A string entry would be indexed character by character, and a non-zero number would make `len()` raise. Open-Meteo sends arrays.
- CalculateFvi: the result's location, timestamp and echo of the raw fetched data are not modelled. It keeps the processed inputs and the socio-economic estimate.
- KeyFactor entries keep the reported figure as a number. The `:.1f`/`:.0f` formatting into the message text is not modelled. `Headline` gives the fixed wording.
- GetSocioeconomic: the unused latitude and longitude parameters are dropped.
- Floating-point effects are not modelled: reals are exact, so binary rounding error, NaN and infinities are absent. For `round(x, 2)` this means the decimal rounding of the exact value. `float()` of a string naming infinity or NaN is modelled as "no finite value", which is the outcome `degrees_to_cardinal` then reaches through its `except`.
- `int()` and `float()` on strings accept ASCII digits only. Digit-group underscores and non-ASCII decimal digits, which Python also accepts, are not modelled. `float()` of an integer too large for a double is not modelled.
- `str.lower()` is modelled only for the characters whose lower-case form is ASCII: `A`–`Z` and the KELVIN SIGN. Any other character that `lower()` changes becomes non-ASCII text in Python, possibly longer than one code point (`'İ'.lower()` has two), so it can never complete a district key. The match/no-match answer of `DistrictToCoords` therefore agrees with Python on every string.
- No source file parses the free-text risk report. `Frontend-Map/leaflet-map/src/FVIDetailsPanel.js` renders fixed placeholder text for the analysis, so no report parser is modelled.
- `APIs/LLM.py` is not modelled: it wraps the OpenAI and Chroma clients and prompt text.
- `APIs/Apis.py` and `APIs/Fuzzy_api.py` are not modelled: they are FastAPI routing.
- `APIs/test.py`, `open-meteo.py`, `Data_Cleaning/predictive_impudation.py` and the React components are not modelled. They are scripts, batch imputation and UI.

=== FILE: cloudburst.dfy ===
/** The feature encoding around the cloudburst regressor: the weather-code
    classes, the compass sector of the dominant wind direction, the day/night
    flag, the current-hour lookup in the hourly series and the final clamp of
    the regressor output to a percentage. */
module Cloudburst {
  import opened Wrappers
  import opened Numeric
  import opened Strings
  import opened Values

  // ---- Weather code ----

  /** WMO weather interpretation code to the class index the regressor was trained on. */
  const WeatherEncoding: map<int, int> := map[
    0 := 0, 1 := 0, 2 := 5, 3 := 4,
    45 := 2, 48 := 2,
    51 := 1, 53 := 1, 55 := 1, 56 := 1, 57 := 1,
    61 := 6, 63 := 6, 65 := 3,
    66 := 6, 67 := 3,
    71 := 6, 73 := 6, 75 := 6, 77 := 6,
    80 := 6, 81 := 6, 82 := 3,
    85 := 6, 86 := 6,
    95 := 7, 96 := 7, 99 := 7
  ]

  /** The WMO codes of each class, grouped by weather phenomenon: clear sky,
      drizzle, fog, heavy rain, overcast, partly cloudy, rain or snow, and
      thunderstorm. */
  function ClassCodes(k: int): set<int> {
    if k == 0 then {0, 1}
    else if k == 1 then {51, 53, 55, 56, 57}
    else if k == 2 then {45, 48}
    else if k == 3 then {65, 67, 82}
    else if k == 4 then {3}
    else if k == 5 then {2}
    else if k == 6 then {61, 63, 66, 71, 73, 75, 77, 80, 81, 85, 86}
    else if k == 7 then {95, 96, 99}
    else {}
  }

  /** The table lookup of `map_weather_description_to_encoding`, with 0 for codes outside it. */
  function EncodeCode(c: int): (k: int)
    ensures 0 <= k <= 7
    ensures c in WeatherEncoding ==> c in ClassCodes(k)
    ensures c !in WeatherEncoding ==> k == 0
  {
    if c in WeatherEncoding then WeatherEncoding[c] else 0
  }

  /** `map_weather_description_to_encoding`: the class of `int(code)`, and 0
      when `int()` rejects the value. */
  function EncodeWeatherCode(code: Value): (k: int)
    ensures 0 <= k <= 7
    ensures ToInt(code).None? ==> k == 0
    ensures ToInt(code).Some? ==> k == EncodeCode(ToInt(code).value)
  {
    match ToInt(code)
    case None => 0
    case Some(c) => EncodeCode(c)
  }

  /** The codes in the table are exactly the codes of the eight groups. */
  lemma TableCodesAreGrouped(c: int)
    ensures c in WeatherEncoding <==> exists k :: 0 <= k <= 7 && c in ClassCodes(k)
  {
    if c in WeatherEncoding {
      var k := WeatherEncoding[c];
      assert 0 <= k <= 7 && c in ClassCodes(k);
    }
  }

  /** Within the table, a code's class is the group it belongs to. */
  lemma TableClassIsGroup(c: int, k: int)
    requires c in WeatherEncoding
    ensures WeatherEncoding[c] == k <==> c in ClassCodes(k)
  {
    assert c in ClassCodes(WeatherEncoding[c]);
    if c in ClassCodes(k) {
      GroupsDisjoint(c, k, WeatherEncoding[c]);
    }
  }

  lemma GroupsDisjoint(c: int, j: int, k: int)
    requires c in ClassCodes(j) && c in ClassCodes(k)
    ensures j == k
  {
  }

  /** The table and the phenomenon groups agree: a code encodes as class `k`
      exactly when it belongs to that group, or `k` is 0 and the code is not
      in the table. */
  lemma EncodeCodeClasses(c: int, k: int)
    ensures EncodeCode(c) == k <==> c in ClassCodes(k) || (k == 0 && c !in WeatherEncoding)
  {
    TableCodesAreGrouped(c);
    if c in WeatherEncoding {
      TableClassIsGroup(c, k);
    } else if 0 <= k <= 7 {
      assert c !in ClassCodes(k);
    }
  }

  /** A code given as a numeral string encodes like the integer itself. */
  lemma EncodeWeatherCodeOfNumeral(c: int)
    ensures EncodeWeatherCode(StrV(IntToString(c))) == EncodeWeatherCode(IntV(c))
  {
    ToIntOfNumeral(c);
  }

  /** `int()` does not trim the ASCII separators that `str.strip()` trims, so
      a code preceded by one is rejected and encodes as 0. */
  lemma SeparatorPaddedCodeIsRejected()
    ensures EncodeWeatherCode(StrV("\U{1C}61")) == 0
  {
    assert IsSeparator("\U{1C}61"[0]);
  }

  // ---- Wind direction ----

  datatype Compass = N | NE | E | SE | S | SW | W | NW {

    function Name(): string {
      match this
      case N => "N" case NE => "NE" case E => "E" case SE => "SE"
      case S => "S" case SW => "SW" case W => "W" case NW => "NW"
    }

    /** Position clockwise from north, in steps of 45 degrees. */
    function Ordinal(): nat {
      match this
      case N => 0 case NE => 1 case E => 2 case SE => 3
      case S => 4 case SW => 5 case W => 6 case NW => 7
    }
  }

  const Dirs: seq<Compass> := [N, NE, E, SE, S, SW, W, NW]

  /** `wind_direction_mapping`: compass name to the integer the regressor was trained on. */
  const WindDirectionMapping: map<string, int> :=
    map["E" := 0, "N" := 1, "NE" := 2, "NW" := 3, "S" := 4, "SE" := 5, "SW" := 6, "W" := 7]

  /** The 45-degree sector of an angle counted from north, as
      `int((deg + 22.5) / 45) % 8` computes it. */
  function SectorOf(x: real): (c: Compass)
    ensures -22.5 <= x ==> c.Ordinal() == ((x + 22.5) / 45.0).Floor % 8
    ensures -67.5 < x < 22.5 ==> c == N
    ensures x < -22.5 ==> c.Ordinal() == (-((-(x + 22.5) / 45.0).Floor)) % 8
  {
    Dirs[Trunc((x + 22.5) / 45.0) % 8]
  }

  /** `degrees_to_cardinal`: the sector of `float(deg)`, and "N" when the
      value cannot be read as a finite float. */
  function DegreesToCardinal(deg: Value): (c: Compass)
    ensures ToFiniteFloat(deg).None? ==> c == N
    ensures ToFiniteFloat(deg).Some? ==> c == SectorOf(ToFiniteFloat(deg).value)
  {
    match ToFiniteFloat(deg)
    case None => N
    case Some(x) => SectorOf(x)
  }

  /** `float()` does not trim the ASCII separators either, so an angle
      preceded by one falls back to "N". */
  lemma SeparatorPaddedAngleIsNorth()
    ensures DegreesToCardinal(StrV("\U{1C}90")) == N
  {
    assert IsSeparator("\U{1C}90"[0]);
  }

  lemma DirsOrdinal(c: Compass)
    ensures Dirs[c.Ordinal()] == c
  {
  }

  /** Each non-negative angle within 22.5 degrees below or strictly less
      than 22.5 above the centre of a sector, in any turn, falls in that sector. */
  lemma CardinalSector(x: real, c: Compass, turns: nat)
    requires 0.0 <= x
    requires var centre := 45.0 * c.Ordinal() as real + 360.0 * turns as real;
      centre - 22.5 <= x < centre + 22.5
    ensures SectorOf(x) == c
  {
    var k := 8 * turns + c.Ordinal();
    var q := (x + 22.5) / 45.0;
    assert k as real <= q < k as real + 1.0;
    assert Trunc(q) == k;
    assert k % 8 == c.Ordinal();
    DirsOrdinal(c);
  }

  /** On non-negative angles the sector repeats every full turn. */
  lemma CardinalPeriodic(x: real)
    requires 0.0 <= x
    ensures SectorOf(x + 360.0) == SectorOf(x)
  {
    var q := (x + 22.5) / 45.0;
    assert (x + 360.0 + 22.5) / 45.0 == q + 8.0;
    assert Trunc(q + 8.0) == Trunc(q) + 8;
    assert (Trunc(q) + 8) % 8 == Trunc(q) % 8;
  }

  /** North covers [0, 22.5) and [337.5, 360) of the first turn. */
  lemma NorthBand(x: real)
    requires 0.0 <= x < 22.5 || 337.5 <= x < 360.0
    ensures SectorOf(x) == N
  {
    if x < 22.5 {
      CardinalSector(x, N, 0);
    } else {
      CardinalSector(x, N, 1);
    }
  }

  /** Truncation toward zero widens the north sector below zero: every angle
      in (-67.5, 22.5) is "N", so -30 degrees reads as north although 330
      degrees reads as north-west. */
  lemma NegativeAnglesLeanNorth(x: real)
    requires -67.5 < x < 22.5
    ensures SectorOf(x) == N
    ensures SectorOf(-30.0) != SectorOf(330.0)
    ensures SectorOf(-100.0) == NW
  {
    var q := (x + 22.5) / 45.0;
    assert -1.0 < q < 1.0;
    assert Trunc(q) == 0;
    CardinalSector(330.0, NW, 0);
    assert Trunc((-30.0 + 22.5) / 45.0) == 0;
    assert Trunc((-100.0 + 22.5) / 45.0) == -1;
  }

  /** Every name `DegreesToCardinal` can produce is a key of the mapping, and
      distinct directions get distinct codes. */
  lemma WindDirectionMappingTotal(c: Compass, d: Compass)
    ensures c.Name() in WindDirectionMapping
    ensures 0 <= WindDirectionMapping[c.Name()] <= 7
    ensures WindDirectionMapping[c.Name()] == WindDirectionMapping[d.Name()] ==> c == d
  {
  }

  /** `wind_direction_mapping.get(degrees_to_cardinal(deg), 1)`: the default 1
      is never taken, because every produced name is a key. */
  function EncodeWindDirection(deg: Value): (k: int)
    ensures 0 <= k <= 7
    ensures DegreesToCardinal(deg).Name() in WindDirectionMapping
    ensures k == WindDirectionMapping[DegreesToCardinal(deg).Name()]
  {
    var c := DegreesToCardinal(deg);
    WindDirectionMappingTotal(c, c);
    if c.Name() in WindDirectionMapping then WindDirectionMapping[c.Name()] else 1
  }

  // ---- Day/night flag ----

  /** `is_day_mapping`: the API's flag is inverted. */
  const IsDayMapping: map<int, int> := map[1 := 0, 0 := 1]

  /** `is_day_mapping.get(v, 0)`: 1 exactly when `v` equals 0 (as an integer
      or a float), 0 for any other hashable value, and None where the lookup
      raises `TypeError` because `v` is a list or a dict. */
  function EncodeIsDay(v: Value): (k: Option<int>)
    ensures k.None? <==> !Hashable(v)
    ensures k.Some? ==> k.value == 0 || k.value == 1
    ensures k == Some(1) <==> IntegralKey(v) == Some(0)
  {
    if !Hashable(v) then None
    else match IntegralKey(v)
      case Some(i) => Some(if i in IsDayMapping then IsDayMapping[i] else 0)
      case None => Some(0)
  }

  /** On the two flag values the encoding swaps them, so applying it twice is the identity. */
  lemma EncodeIsDaySwaps(b: int)
    requires b == 0 || b == 1
    ensures EncodeIsDay(IntV(b)) == Some(1 - b)
    ensures EncodeIsDay(IntV(EncodeIsDay(IntV(b)).value)) == Some(b)
  {
  }

  // ---- Current hour ----

  /** The position of the first `x` in `xs` (Python's `list.index`), or None when absent. */
  function FirstIndex<T(==)>(xs: seq<T>, x: T): (r: Option<nat>)
    ensures r.None? <==> x !in xs
    ensures r.Some? ==> r.value < |xs| && xs[r.value] == x && x !in xs[..r.value]
  {
    if |xs| == 0 then None
    else if xs[0] == x then Some(0)
    else match FirstIndex(xs[1..], x)
      case None => None
      case Some(i) => Some(i + 1)
  }

  /** `hr_times.index(curr_time) if curr_time in hr_times else 0`. */
  function HourIndex(times: seq<string>, now: string): (idx: nat)
    ensures now in times ==> idx < |times| && times[idx] == now
    ensures now in times ==> forall j :: 0 <= j < idx ==> times[j] != now
    ensures now !in times ==> idx == 0
  {
    match FirstIndex(times, now)
    case Some(i) => i
    case None => 0
  }

  /** The nested `get` helper: `vals[idx] if vals and idx < len(vals) else
      default`, where `vals` is the series stored under `key` and a missing
      key or a JSON null yields no series. */
  function SeriesValue<T>(src: map<string, Option<seq<T>>>, key: string, idx: nat, default: T): (v: T)
    ensures key in src && src[key].Some? && idx < |src[key].value| ==> v == src[key].value[idx]
    ensures !(key in src && src[key].Some? && idx < |src[key].value|) ==> v == default
  {
    var vals := if key in src then src[key] else None;
    if vals.Some? && |vals.value| > 0 && idx < |vals.value| then vals.value[idx] else default
  }

  // ---- Feature row ----

  /** The previous-week averages used when an hourly series has no value at the current hour. */
  datatype Historical = Historical(humidity: real, pressure: real, cloudcover: real, temperature: real)

  /** The hourly and encoded members of the regressor's 14 inputs; the daily
      figures are passed to the regressor unchanged and are not repeated here. */
  datatype Features = Features(
    humidity: Value,
    pressure: Value,
    cloudcover: Value,
    windDirection: int,
    isDay: int,
    temperature: Value,
    weather: int)

  /** The feature assembly of `predict_cloudburst`, given the hourly series,
      their time stamps, the current time, the previous-week averages and the
      first daily dominant wind direction and weather code; None where the
      day-flag lookup raises. */
  function BuildFeatures(
    hourly: map<string, Option<seq<Value>>>,
    times: seq<string>,
    now: string,
    hist: Historical,
    windDegrees: Value,
    weatherCode: Value): (f: Option<Features>)
    ensures f.None? <==> !Hashable(SeriesValue(hourly, "is_day", HourIndex(times, now), IntV(1)))
    ensures f.Some? ==> 0 <= f.value.windDirection <= 7 && (f.value.isDay == 0 || f.value.isDay == 1) && 0 <= f.value.weather <= 7
    ensures f.Some? ==> forall i :: (0 <= i < |times| && times[i] == now && now !in times[..i] &&
                         "relativehumidity_2m" in hourly && hourly["relativehumidity_2m"].Some? &&
                         |hourly["relativehumidity_2m"].value| == |times|) ==>
                        f.value.humidity == hourly["relativehumidity_2m"].value[i]
    ensures "is_day" !in hourly ==> f.Some? && f.value.isDay == 0
    ensures f.Some? && "cloudcover" !in hourly ==> f.value.cloudcover == FloatV(hist.cloudcover)
    ensures f.Some? ==> var idx := HourIndex(times, now);
      && f.value.humidity == SeriesValue(hourly, "relativehumidity_2m", idx, FloatV(hist.humidity))
      && f.value.pressure == SeriesValue(hourly, "pressure_msl", idx, FloatV(hist.pressure))
      && f.value.cloudcover == SeriesValue(hourly, "cloudcover", idx, FloatV(hist.cloudcover))
      && Some(f.value.isDay) == EncodeIsDay(SeriesValue(hourly, "is_day", idx, IntV(1)))
      && f.value.temperature == SeriesValue(hourly, "temperature_2m", idx, FloatV(hist.temperature))
      && f.value.windDirection == EncodeWindDirection(windDegrees)
      && f.value.weather == EncodeWeatherCode(weatherCode)
  {
    var idx := HourIndex(times, now);
    match EncodeIsDay(SeriesValue(hourly, "is_day", idx, IntV(1)))
    case None => None
    case Some(isDay) =>
      Some(Features(
        SeriesValue(hourly, "relativehumidity_2m", idx, FloatV(hist.humidity)),
        SeriesValue(hourly, "pressure_msl", idx, FloatV(hist.pressure)),
        SeriesValue(hourly, "cloudcover", idx, FloatV(hist.cloudcover)),
        EncodeWindDirection(windDegrees),
        isDay,
        SeriesValue(hourly, "temperature_2m", idx, FloatV(hist.temperature)),
        EncodeWeatherCode(weatherCode)))
  }

  /** `i` is the position of the first occurrence of `now`, and the series
      under `key` has one entry per time stamp. */
  predicate AlignedAt(hourly: map<string, Option<seq<Value>>>, key: string, times: seq<string>, now: string, i: int) {
    && 0 <= i < |times| && times[i] == now && now !in times[..i]
    && key in hourly && hourly[key].Some? && |hourly[key].value| == |times|
  }

  /** The hour index is the first occurrence of the current time. */
  lemma HourIndexIsFirst(times: seq<string>, now: string, i: int)
    requires 0 <= i < |times| && times[i] == now && now !in times[..i]
    ensures HourIndex(times, now) == i
  {
  }

  /** Every hourly feature of a series aligned with the time stamps is that
      series' entry for the current hour, and so is the day flag before encoding. */
  lemma BuildFeaturesCurrentHour(
    hourly: map<string, Option<seq<Value>>>, times: seq<string>, now: string, hist: Historical,
    windDegrees: Value, weatherCode: Value, i: int)
    ensures var f := BuildFeatures(hourly, times, now, hist, windDegrees, weatherCode);
      && (AlignedAt(hourly, "relativehumidity_2m", times, now, i) && f.Some? ==>
            f.value.humidity == hourly["relativehumidity_2m"].value[i])
      && (AlignedAt(hourly, "pressure_msl", times, now, i) && f.Some? ==>
            f.value.pressure == hourly["pressure_msl"].value[i])
      && (AlignedAt(hourly, "cloudcover", times, now, i) && f.Some? ==>
            f.value.cloudcover == hourly["cloudcover"].value[i])
      && (AlignedAt(hourly, "temperature_2m", times, now, i) && f.Some? ==>
            f.value.temperature == hourly["temperature_2m"].value[i])
      && (AlignedAt(hourly, "is_day", times, now, i) ==>
            f.None? == !Hashable(hourly["is_day"].value[i]) &&
            (f.Some? ==> Some(f.value.isDay) == EncodeIsDay(hourly["is_day"].value[i])))
  {
    if 0 <= i < |times| && times[i] == now && now !in times[..i] {
      HourIndexIsFirst(times, now, i);
    }
  }

  // ---- Output ----

  /** `int(max(0, min(100, round(raw_pred))))`: an integer percentage. */
  function Probability(rawPrediction: real): (p: int)
    ensures 0 <= p <= 100
    ensures p == 0 <==> rawPrediction <= 0.5
    ensures p == 100 <==> rawPrediction >= 99.5
    ensures -0.5 <= rawPrediction <= 100.5 ==> p as real - 0.5 <= rawPrediction <= p as real + 0.5
    ensures rawPrediction - rawPrediction.Floor as real == 0.5 ==> p % 2 == 0
    ensures 0 <= RoundHalfEven(rawPrediction) <= 100 ==> p == RoundHalfEven(rawPrediction)
  {
    var r := RoundHalfEven(rawPrediction);
    var capped := if r < 100 then r else 100;
    if capped > 0 then capped else 0
  }

  lemma ProbabilityMonotone(x: real, y: real)
    requires x <= y
    ensures Probability(x) <= Probability(y)
  {
    RoundHalfEvenMonotone(x, y);
  }
}

=== FILE: fvi.dfy ===
/** The rule-based part of the flood vulnerability index (FVI): the district
    table, the socio-economic estimate, the clamping of the six fuzzy inputs,
    the score bands, the key-factor list and the additive fallback score used
    when the fuzzy controller fails. */
module FloodVulnerability {
  import opened Wrappers
  import opened Numeric
  import opened Strings

  // ---- District table ----

  datatype District = District(lat: real, lon: real, popDensity: real, urbanization: real, devPressure: real)

  /** `UTTARAKHAND_DISTRICTS`, keyed by lower-case name. */
  const UttarakhandDistricts: map<string, District> := map[
    "dehradun" := District(30.3165, 78.0322, 550.0, 65.0, 80.0),
    "haridwar" := District(29.9457, 78.1642, 820.0, 50.0, 70.0),
    "nainital" := District(29.3919, 79.4542, 225.0, 35.0, 60.0),
    "rishikesh" := District(30.0869, 78.2676, 400.0, 45.0, 55.0),
    "almora" := District(29.5971, 79.6593, 140.0, 20.0, 30.0),
    "uttarkashi" := District(31.0916, 78.4547, 85.0, 12.0, 20.0),
    "tehri" := District(30.3271, 78.0021, 160.0, 22.0, 35.0)
  ]

  /** What `district_to_coords` returns: latitude, longitude and the
      socio-economic dict handed on to `get_socioeconomic`. */
  datatype Coords = Coords(lat: real, lon: real, info: map<string, real>)

  function InfoOf(d: District): map<string, real> {
    map["pop_density" := d.popDensity, "urbanization" := d.urbanization, "dev_pressure" := d.devPressure]
  }

  /** `name.strip().lower()`. */
  function LookupKey(name: string): string {
    Lower(Strip(name))
  }

  /** `district_to_coords`: the entry whose key is the stripped, lower-cased
      name, with its fields unchanged; None for any other name. */
  function DistrictToCoords(name: string): (r: Option<Coords>)
    ensures r.Some? <==> LookupKey(name) in UttarakhandDistricts
    ensures r.Some? ==> var d := UttarakhandDistricts[LookupKey(name)];
      r.value.lat == d.lat && r.value.lon == d.lon && r.value.info == InfoOf(d)
  {
    var key := LookupKey(name);
    if key in UttarakhandDistricts then
      var d := UttarakhandDistricts[key];
      Some(Coords(d.lat, d.lon, InfoOf(d)))
    else None
  }

  /** The lookup ignores letter case. */
  lemma DistrictToCoordsIgnoresCase(name: string)
    ensures DistrictToCoords(Lower(name)) == DistrictToCoords(name)
  {
    LowerStripCommute(name);
    LowerIdempotent(Strip(name));
  }

  /** The lookup ignores surrounding whitespace. */
  lemma DistrictToCoordsIgnoresPadding(pre: string, name: string, post: string)
    requires AllSpace(pre) && AllSpace(post)
    ensures DistrictToCoords(pre + name + post) == DistrictToCoords(name)
  {
    StripAbsorbsPadding(pre, name, post);
  }

  predicate AllLower(s: string) {
    forall i :: 0 <= i < |s| ==> 'a' <= s[i] <= 'z'
  }

  lemma LowerOfLowercase(s: string)
    requires AllLower(s)
    ensures Lower(s) == s
  {
  }

  lemma TableKeysCanonical(key: string)
    requires key in UttarakhandDistricts
    ensures AllLower(key) && |key| > 0
  {
    if key == "dehradun" {
    } else if key == "haridwar" {
    } else if key == "nainital" {
    } else if key == "rishikesh" {
    } else if key == "almora" {
    } else if key == "uttarkashi" {
    } else {
      assert key == "tehri";
    }
  }

  /** Every table key finds its own entry. */
  lemma DistrictToCoordsFindsEveryKey(key: string)
    requires key in UttarakhandDistricts
    ensures DistrictToCoords(key).Some?
    ensures DistrictToCoords(key).value.info == InfoOf(UttarakhandDistricts[key])
  {
    TableKeysCanonical(key);
    assert Trimmed(key);
    StripOfTrimmed(key);
    LowerOfLowercase(key);
  }

  // ---- Socio-economic estimate ----

  datatype Socioeconomic = Socioeconomic(
    populationDensity: real,
    urbanizationLevel: real,
    imperviousness: real,
    developmentPressure: real)

  const DefaultPopDensity: real := 180.0
  const DefaultUrbanization: real := 25.0
  const DefaultDevPressure: real := 40.0
  const ImperviousnessCap: real := 95.0

  /** `d.get(key, default)`. */
  function LookupOr(d: map<string, real>, key: string, default: real): real {
    if key in d then d[key] else default
  }

  /** `get_socioeconomic`: every field comes from the district dict when it
      holds that key and is the default otherwise (so the separate test for a
      missing or empty dict changes nothing), and imperviousness is
      0.8 * urbanization + 0.3 * development pressure, capped at 95. */
  function GetSocioeconomic(districtInfo: Option<map<string, real>>): (s: Socioeconomic)
    ensures s.populationDensity ==
      (if districtInfo.Some? && "pop_density" in districtInfo.value then districtInfo.value["pop_density"] else DefaultPopDensity)
    ensures s.urbanizationLevel ==
      (if districtInfo.Some? && "urbanization" in districtInfo.value then districtInfo.value["urbanization"] else DefaultUrbanization)
    ensures s.developmentPressure ==
      (if districtInfo.Some? && "dev_pressure" in districtInfo.value then districtInfo.value["dev_pressure"] else DefaultDevPressure)
    ensures s.imperviousness <= ImperviousnessCap
    ensures s.imperviousness <= 0.8 * s.urbanizationLevel + 0.3 * s.developmentPressure
    ensures s.imperviousness == ImperviousnessCap || s.imperviousness == 0.8 * s.urbanizationLevel + 0.3 * s.developmentPressure
  {
    var (pop, urb, dev) :=
      if districtInfo.Some? && |districtInfo.value| > 0 then
        (LookupOr(districtInfo.value, "pop_density", DefaultPopDensity),
         LookupOr(districtInfo.value, "urbanization", DefaultUrbanization),
         LookupOr(districtInfo.value, "dev_pressure", DefaultDevPressure))
      else (DefaultPopDensity, DefaultUrbanization, DefaultDevPressure);
    var estimate := urb * 0.8 + dev * 0.3;
    var imperviousness := if estimate < ImperviousnessCap then estimate else ImperviousnessCap;
    Socioeconomic(pop, urb, imperviousness, dev)
  }

  /** Without district information the defaults give 0.8 * 25 + 0.3 * 40 = 32. */
  lemma DefaultImperviousness()
    ensures GetSocioeconomic(None).imperviousness == 32.0
    ensures GetSocioeconomic(Some(map[])).imperviousness == 32.0
  {
  }

  /** More urbanization or development pressure never lowers imperviousness. */
  lemma ImperviousnessMonotone(urb: real, dev: real, urb': real, dev': real)
    requires urb <= urb' && dev <= dev'
    ensures GetSocioeconomic(Some(map["urbanization" := urb, "dev_pressure" := dev])).imperviousness
         <= GetSocioeconomic(Some(map["urbanization" := urb', "dev_pressure" := dev'])).imperviousness
  {
  }

  // ---- Fuzzy inputs ----

  /** The six inputs of the fuzzy controller, before or after clamping. */
  datatype Inputs = Inputs(
    rainfall: real,
    slope: real,
    imperviousness: real,
    distanceWater: real,
    soilMoisture: real,
    elevation: real)

  const RainfallMax: real := 200.0
  const SlopeMax: real := 45.0
  const ImperviousnessMax: real := 100.0
  const DistanceWaterMax: real := 10000.0
  const SoilMoistureMax: real := 1.0
  const ElevationMax: real := 3000.0

  /** Each input lies in the universe of discourse of its fuzzy variable. */
  predicate InFuzzyRange(p: Inputs) {
    && 0.0 <= p.rainfall <= RainfallMax
    && 0.0 <= p.slope <= SlopeMax
    && 0.0 <= p.imperviousness <= ImperviousnessMax
    && 0.0 <= p.distanceWater <= DistanceWaterMax
    && 0.0 <= p.soilMoisture <= SoilMoistureMax
    && 0.0 <= p.elevation <= ElevationMax
  }

  /** The input-clamping block of `calculate_fvi`: each raw value clamped into its range. */
  function ClampInputs(raw: Inputs): (p: Inputs)
    ensures InFuzzyRange(p)
    ensures InFuzzyRange(raw) ==> p == raw
    ensures p.rainfall == Clamp(raw.rainfall, 0.0, RainfallMax)
    ensures p.slope == Clamp(raw.slope, 0.0, SlopeMax)
    ensures p.imperviousness == Clamp(raw.imperviousness, 0.0, ImperviousnessMax)
    ensures p.distanceWater == Clamp(raw.distanceWater, 0.0, DistanceWaterMax)
    ensures p.soilMoisture == Clamp(raw.soilMoisture, 0.0, SoilMoistureMax)
    ensures p.elevation == Clamp(raw.elevation, 0.0, ElevationMax)
  {
    Inputs(
      Clamp(raw.rainfall, 0.0, RainfallMax),
      Clamp(raw.slope, 0.0, SlopeMax),
      Clamp(raw.imperviousness, 0.0, ImperviousnessMax),
      Clamp(raw.distanceWater, 0.0, DistanceWaterMax),
      Clamp(raw.soilMoisture, 0.0, SoilMoistureMax),
      Clamp(raw.elevation, 0.0, ElevationMax))
  }

  lemma ClampInputsIdempotent(raw: Inputs)
    ensures ClampInputs(ClampInputs(raw)) == ClampInputs(raw)
  {
  }

  // ---- Risk bands ----

  datatype RiskLevel = VeryLow | Low | Moderate | High | VeryHigh {

    function Label(): string {
      match this
      case VeryLow => "Very Low"
      case Low => "Low"
      case Moderate => "Moderate"
      case High => "High"
      case VeryHigh => "Very High"
    }

    function Rank(): nat {
      match this
      case VeryLow => 0
      case Low => 1
      case Moderate => 2
      case High => 3
      case VeryHigh => 4
    }
  }

  /** Inclusive upper score bound of the bands of rank 0 to 3; the last band is unbounded. */
  const UpperBounds: seq<real> := [25.0, 45.0, 65.0, 85.0]

  /** The score lies above the bound of the band below and at most the band's own bound. */
  predicate InBand(score: real, l: RiskLevel) {
    var k := l.Rank();
    (k == 0 || UpperBounds[k - 1] < score) && (k == 4 || score <= UpperBounds[k])
  }

  /** The nested `interpret` of `calculate_fvi`. */
  function Interpret(score: real): (l: RiskLevel)
    ensures InBand(score, l)
  {
    if score <= 25.0 then VeryLow
    else if score <= 45.0 then Low
    else if score <= 65.0 then Moderate
    else if score <= 85.0 then High
    else VeryHigh
  }

  /** The bands do not overlap, so `Interpret` returns `l` exactly when the score is in `l`'s band. */
  lemma InterpretExactlyBand(score: real, l: RiskLevel)
    ensures Interpret(score) == l <==> InBand(score, l)
  {
  }

  lemma InterpretMonotone(s: real, t: real)
    requires s <= t
    ensures Interpret(s).Rank() <= Interpret(t).Rank()
  {
  }

  // ---- Key factors ----

  /** The entries of the key-factor list, each carrying the processed input
      value it reports. */
  datatype KeyFactor =
    | HeavyRainfall(mm: real)
    | ModerateRainfall(mm: real)
    | HighImperviousness(percent: real)
    | ModerateImperviousness(percent: real)
    | VeryCloseToWater(meters: real)
    | CloseToWater(meters: real)
    | LowElevation(meters: real)
    | VeryFlatTerrain(degrees: real)
    | CombinedFactors
  {
    /** The text before the formatted figure; the whole text for `CombinedFactors`. */
    function Headline(): string {
      match this
      case HeavyRainfall(_) => "Heavy recent rainfall"
      case ModerateRainfall(_) => "Moderate rainfall"
      case HighImperviousness(_) => "High imperviousness"
      case ModerateImperviousness(_) => "Moderate imperviousness"
      case VeryCloseToWater(_) => "Very close to water body"
      case CloseToWater(_) => "Close to water body"
      case LowElevation(_) => "Low elevation"
      case VeryFlatTerrain(_) => "Very flat terrain"
      case CombinedFactors => "Moderate risk from combined factors"
    }

    /** Which input the entry is about, in the order the rules are applied. */
    function Topic(): nat {
      match this
      case HeavyRainfall(_) => 0
      case ModerateRainfall(_) => 0
      case HighImperviousness(_) => 1
      case ModerateImperviousness(_) => 1
      case VeryCloseToWater(_) => 2
      case CloseToWater(_) => 2
      case LowElevation(_) => 3
      case VeryFlatTerrain(_) => 4
      case CombinedFactors => 5
    }
  }

  /** No key-factor threshold fires. */
  predicate NoThresholdFires(p: Inputs) {
    p.rainfall < 20.0 && p.imperviousness < 40.0 && p.distanceWater > 2000.0 && p.elevation > 400.0 && p.slope > 5.0
  }

  function RainfallFactor(p: Inputs): seq<KeyFactor> {
    if p.rainfall >= 50.0 then [HeavyRainfall(p.rainfall)]
    else if p.rainfall >= 20.0 then [ModerateRainfall(p.rainfall)]
    else []
  }

  function ImperviousnessFactor(p: Inputs): seq<KeyFactor> {
    if p.imperviousness >= 60.0 then [HighImperviousness(p.imperviousness)]
    else if p.imperviousness >= 40.0 then [ModerateImperviousness(p.imperviousness)]
    else []
  }

  function WaterFactor(p: Inputs): seq<KeyFactor> {
    if p.distanceWater <= 500.0 then [VeryCloseToWater(p.distanceWater)]
    else if p.distanceWater <= 2000.0 then [CloseToWater(p.distanceWater)]
    else []
  }

  function ElevationFactor(p: Inputs): seq<KeyFactor> {
    if p.elevation <= 400.0 then [LowElevation(p.elevation)] else []
  }

  function SlopeFactor(p: Inputs): seq<KeyFactor> {
    if p.slope <= 5.0 then [VeryFlatTerrain(p.slope)] else []
  }

  /** Each entry is about a later input than the one before it. */
  predicate Increasing(fs: seq<KeyFactor>) {
    forall i, j :: 0 <= i < j < |fs| ==> fs[i].Topic() < fs[j].Topic()
  }

  lemma AppendTopic(a: seq<KeyFactor>, b: seq<KeyFactor>, t: nat)
    requires Increasing(a) && forall f :: f in a ==> f.Topic() < t
    requires |b| <= 1 && forall f :: f in b ==> f.Topic() == t
    ensures Increasing(a + b)
    ensures forall f :: f in a + b ==> f.Topic() <= t
  {
  }

  /** The entries of the five rules in rule order, before the fallback entry is considered. */
  function FiredFactors(p: Inputs): (fs: seq<KeyFactor>)
    ensures |fs| <= 5 && Increasing(fs)
    ensures forall f :: f in fs ==> f.Topic() < 5
  {
    var (rain, imperv, water, elev, flat) :=
      (RainfallFactor(p), ImperviousnessFactor(p), WaterFactor(p), ElevationFactor(p), SlopeFactor(p));
    AppendTopic(rain, imperv, 1);
    AppendTopic(rain + imperv, water, 2);
    AppendTopic(rain + imperv + water, elev, 3);
    AppendTopic(rain + imperv + water + elev, flat, 4);
    rain + imperv + water + elev + flat
  }

  /** The key-factor extraction of `calculate_fvi`: at most one entry per
      input in rule order, and the combined-factors entry exactly when no
      rule fires. */
  function KeyFactors(p: Inputs): (fs: seq<KeyFactor>)
    ensures 1 <= |fs| <= 5
    ensures fs == [CombinedFactors] <==> NoThresholdFires(p)
    ensures Increasing(fs)
  {
    var fired := FiredFactors(p);
    if |fired| == 0 then [CombinedFactors]
    else
      assert fired[0].Topic() < 5;
      fired
  }

  /** Apart from the combined-factors entry, the list holds exactly what the five rules produce. */
  lemma KeyFactorsParts(p: Inputs)
    ensures forall f :: f != CombinedFactors ==>
      (f in KeyFactors(p) <==>
         f in RainfallFactor(p) || f in ImperviousnessFactor(p) || f in WaterFactor(p) ||
         f in ElevationFactor(p) || f in SlopeFactor(p))
    ensures CombinedFactors in KeyFactors(p) ==> NoThresholdFires(p)
  {
    var (rain, imperv, water, elev, flat) :=
      (RainfallFactor(p), ImperviousnessFactor(p), WaterFactor(p), ElevationFactor(p), SlopeFactor(p));
    var fired := FiredFactors(p);
    assert fired == rain + imperv + water + elev + flat;
    assert forall f :: f in fired <==> f in rain || f in imperv || f in water || f in elev || f in flat;
  }

  /** A rainfall entry is present exactly when its threshold is reached. */
  lemma KeyFactorsRainfall(p: Inputs)
    ensures HeavyRainfall(p.rainfall) in KeyFactors(p) <==> p.rainfall >= 50.0
    ensures ModerateRainfall(p.rainfall) in KeyFactors(p) <==> 20.0 <= p.rainfall < 50.0
  {
    KeyFactorsParts(p);
  }

  /** An imperviousness entry is present exactly when its threshold is reached. */
  lemma KeyFactorsImperviousness(p: Inputs)
    ensures HighImperviousness(p.imperviousness) in KeyFactors(p) <==> p.imperviousness >= 60.0
    ensures ModerateImperviousness(p.imperviousness) in KeyFactors(p) <==> 40.0 <= p.imperviousness < 60.0
  {
    KeyFactorsParts(p);
  }

  /** A water-proximity entry is present exactly when its threshold is reached. */
  lemma KeyFactorsWater(p: Inputs)
    ensures VeryCloseToWater(p.distanceWater) in KeyFactors(p) <==> p.distanceWater <= 500.0
    ensures CloseToWater(p.distanceWater) in KeyFactors(p) <==> 500.0 < p.distanceWater <= 2000.0
  {
    KeyFactorsParts(p);
  }

  /** The elevation and slope entries are present exactly when their thresholds are reached. */
  lemma KeyFactorsTerrain(p: Inputs)
    ensures LowElevation(p.elevation) in KeyFactors(p) <==> p.elevation <= 400.0
    ensures VeryFlatTerrain(p.slope) in KeyFactors(p) <==> p.slope <= 5.0
  {
    KeyFactorsParts(p);
  }

  /** Every entry reports the processed input it is about. */
  lemma KeyFactorsCarryInputs(p: Inputs)
    ensures forall f :: f in KeyFactors(p) ==> CarriesInput(f, p)
  {
    KeyFactorsParts(p);
  }

  /** The figure an entry reports is the processed input it is about. */
  predicate CarriesInput(f: KeyFactor, p: Inputs) {
    match f
    case HeavyRainfall(mm) => mm == p.rainfall
    case ModerateRainfall(mm) => mm == p.rainfall
    case HighImperviousness(pct) => pct == p.imperviousness
    case ModerateImperviousness(pct) => pct == p.imperviousness
    case VeryCloseToWater(m) => m == p.distanceWater
    case CloseToWater(m) => m == p.distanceWater
    case LowElevation(m) => m == p.elevation
    case VeryFlatTerrain(d) => d == p.slope
    case CombinedFactors => NoThresholdFires(p)
  }

  // ---- Fallback score ----

  const FallbackBase: real := 30.0

  /** Rainfall contribution: exactly one of 25, 15, 8 and 0 points. */
  function RainfallPoints(mm: real): (pts: real)
    ensures pts == 25.0 <==> mm >= 100.0
    ensures pts == 15.0 <==> 50.0 <= mm < 100.0
    ensures pts == 8.0 <==> 20.0 <= mm < 50.0
    ensures pts == 0.0 <==> mm < 20.0
  {
    if mm >= 100.0 then 25.0 else if mm >= 50.0 then 15.0 else if mm >= 20.0 then 8.0 else 0.0
  }

  /** Imperviousness contribution: exactly one of 20, 12, 6 and 0 points. */
  function ImperviousnessPoints(pct: real): (pts: real)
    ensures pts == 20.0 <==> pct >= 70.0
    ensures pts == 12.0 <==> 50.0 <= pct < 70.0
    ensures pts == 6.0 <==> 30.0 <= pct < 50.0
    ensures pts == 0.0 <==> pct < 30.0
  {
    if pct >= 70.0 then 20.0 else if pct >= 50.0 then 12.0 else if pct >= 30.0 then 6.0 else 0.0
  }

  /** Water-proximity contribution: exactly one of 15, 10, 5 and 0 points. */
  function WaterPoints(m: real): (pts: real)
    ensures pts == 15.0 <==> m <= 100.0
    ensures pts == 10.0 <==> 100.0 < m <= 500.0
    ensures pts == 5.0 <==> 500.0 < m <= 2000.0
    ensures pts == 0.0 <==> m > 2000.0
  {
    if m <= 100.0 then 15.0 else if m <= 500.0 then 10.0 else if m <= 2000.0 then 5.0 else 0.0
  }

  /** Elevation contribution: exactly one of 10, 5 and 0 points. */
  function ElevationPoints(m: real): (pts: real)
    ensures pts == 10.0 <==> m <= 300.0
    ensures pts == 5.0 <==> 300.0 < m <= 600.0
    ensures pts == 0.0 <==> m > 600.0
  {
    if m <= 300.0 then 10.0 else if m <= 600.0 then 5.0 else 0.0
  }

  /** Slope contribution: +5 on flat ground, -5 on steep ground, 0 otherwise. */
  function SlopePoints(deg: real): (pts: real)
    ensures pts == 5.0 <==> deg <= 3.0
    ensures pts == -5.0 <==> deg >= 25.0
    ensures pts == 0.0 <==> 3.0 < deg < 25.0
  {
    if deg <= 3.0 then 5.0 else if deg >= 25.0 then -5.0 else 0.0
  }

  /** `_fallback_fvi_calculation`: the base score plus one contribution per
      factor, clamped to [0, 100]. The sum is at least 25, so only the upper
      clamp can take effect. */
  function FallbackScore(p: Inputs): (score: real)
    ensures 25.0 <= score <= 100.0
    ensures score == score.Floor as real
    ensures var sum := FallbackBase + RainfallPoints(p.rainfall) + ImperviousnessPoints(p.imperviousness)
        + WaterPoints(p.distanceWater) + ElevationPoints(p.elevation) + SlopePoints(p.slope);
      25.0 <= sum <= 105.0 && score == (if sum < 100.0 then sum else 100.0)
  {
    var sum := FallbackBase + RainfallPoints(p.rainfall) + ImperviousnessPoints(p.imperviousness)
      + WaterPoints(p.distanceWater) + ElevationPoints(p.elevation) + SlopePoints(p.slope);
    Clamp(sum, 0.0, 100.0)
  }

  /** More rain never lowers the fallback score. */
  lemma FallbackMonotoneRainfall(p: Inputs, mm: real)
    requires p.rainfall <= mm
    ensures FallbackScore(p) <= FallbackScore(p.(rainfall := mm))
  {
  }

  /** More imperviousness never lowers the fallback score. */
  lemma FallbackMonotoneImperviousness(p: Inputs, pct: real)
    requires p.imperviousness <= pct
    ensures FallbackScore(p) <= FallbackScore(p.(imperviousness := pct))
  {
  }

  /** Moving away from water never raises the fallback score. */
  lemma FallbackAntitoneDistance(p: Inputs, m: real)
    requires p.distanceWater <= m
    ensures FallbackScore(p.(distanceWater := m)) <= FallbackScore(p)
  {
  }

  /** Higher ground never raises the fallback score. */
  lemma FallbackAntitoneElevation(p: Inputs, m: real)
    requires p.elevation <= m
    ensures FallbackScore(p.(elevation := m)) <= FallbackScore(p)
  {
  }

  /** A steeper slope never raises the fallback score. */
  lemma FallbackAntitoneSlope(p: Inputs, deg: real)
    requires p.slope <= deg
    ensures FallbackScore(p.(slope := deg)) <= FallbackScore(p)
  {
  }

  /** Soil moisture takes no part in the fallback score. */
  lemma FallbackIgnoresSoilMoisture(p: Inputs, m: real)
    ensures FallbackScore(p.(soilMoisture := m)) == FallbackScore(p)
  {
  }

  /** When every factor is at its worst the contributions add up to 105 and
      the clamp cuts the score to 100. */
  lemma FallbackReachesCap(p: Inputs)
    requires p.rainfall >= 100.0 && p.imperviousness >= 70.0 && p.distanceWater <= 100.0
    requires p.elevation <= 300.0 && p.slope <= 3.0
    ensures FallbackScore(p) == 100.0
  {
  }

  // ---- The whole calculation ----

  /** The fetched measurements `calculate_fvi` starts from. */
  datatype Observations = Observations(
    currentRainfall: real,
    soilMoisture: real,
    elevation: real,
    slope: real,
    distanceToWater: real)

  datatype FviResult = FviResult(
    score: real,
    riskLevel: RiskLevel,
    keyFactors: seq<KeyFactor>,
    processedInputs: Inputs,
    socioeconomic: Socioeconomic)

  /** The processed inputs: the observations and the imperviousness estimate, clamped. */
  function ProcessedInputs(obs: Observations, socio: Socioeconomic): (p: Inputs)
    ensures p.rainfall == Clamp(obs.currentRainfall, 0.0, RainfallMax)
    ensures p.slope == Clamp(obs.slope, 0.0, SlopeMax)
    ensures p.imperviousness == Clamp(socio.imperviousness, 0.0, ImperviousnessMax)
    ensures p.distanceWater == Clamp(obs.distanceToWater, 0.0, DistanceWaterMax)
    ensures p.soilMoisture == Clamp(obs.soilMoisture, 0.0, SoilMoistureMax)
    ensures p.elevation == Clamp(obs.elevation, 0.0, ElevationMax)
  {
    ClampInputs(Inputs(obs.currentRainfall, obs.slope, socio.imperviousness,
                       obs.distanceToWater, obs.soilMoisture, obs.elevation))
  }

  /** The score before rounding: the fuzzy controller's output, or the fallback when it fails. */
  function UnroundedScore(p: Inputs, fuzzy: Inputs -> Option<real>): (r: real)
    ensures fuzzy(p).Some? ==> r == fuzzy(p).value
    ensures fuzzy(p).None? ==> r == FallbackScore(p)
  {
    match fuzzy(p)
    case Some(s) => s
    case None => FallbackScore(p)
  }

  /** The pure part of `calculate_fvi`. `fuzzy` stands for the fuzzy
      controller: its output for the processed inputs, or None when it raises. */
  function CalculateFvi(obs: Observations, districtInfo: Option<map<string, real>>, fuzzy: Inputs -> Option<real>): (res: FviResult)
    ensures InFuzzyRange(res.processedInputs)
    ensures res.socioeconomic.imperviousness <= ImperviousnessCap
    ensures 1 <= |res.keyFactors| <= 5
    ensures var raw := UnroundedScore(res.processedInputs, fuzzy);
      raw - 0.005 <= res.score <= raw + 0.005 && InBand(raw, res.riskLevel)
    ensures fuzzy(res.processedInputs).None? ==>
      0.0 <= res.score <= 100.0 && res.score == FallbackScore(res.processedInputs)
    ensures res.socioeconomic == GetSocioeconomic(districtInfo)
    ensures res.processedInputs == ProcessedInputs(obs, res.socioeconomic)
    ensures res.keyFactors == KeyFactors(res.processedInputs)
    ensures res.riskLevel == Interpret(UnroundedScore(res.processedInputs, fuzzy))
    ensures res.score == RoundTo2(UnroundedScore(res.processedInputs, fuzzy))
  {
    var socio := GetSocioeconomic(districtInfo);
    var p := ProcessedInputs(obs, socio);
    var raw := UnroundedScore(p, fuzzy);
    if fuzzy(p).None? then
      WholeScoresRoundToThemselves(raw);
      FviResult(RoundTo2(raw), Interpret(raw), KeyFactors(p), p, socio)
    else
      FviResult(RoundTo2(raw), Interpret(raw), KeyFactors(p), p, socio)
  }

  /** The controller only decides the score and its label: the socio-economic
      estimate, the processed inputs and the key factors do not depend on it,
      and two controllers that agree on the processed inputs give the same result. */
  lemma CalculateFviControllerOnlyScores(obs: Observations, districtInfo: Option<map<string, real>>,
                                         fuzzy: Inputs -> Option<real>, fuzzy': Inputs -> Option<real>)
    ensures var res := CalculateFvi(obs, districtInfo, fuzzy);
      var res' := CalculateFvi(obs, districtInfo, fuzzy');
      && res.socioeconomic == res'.socioeconomic
      && res.processedInputs == res'.processedInputs
      && res.keyFactors == res'.keyFactors
      && (fuzzy(res.processedInputs) == fuzzy'(res.processedInputs) ==> res == res')
  {
  }

  /** A whole-number score is reported as it is. */
  lemma WholeScoresRoundToThemselves(x: real)
    requires x == x.Floor as real
    ensures RoundTo2(x) == x
  {
    var n := x.Floor * 100;
    assert x * 100.0 == n as real;
    RoundHalfEvenUnique(x * 100.0, n);
  }

  /** The label is taken from the unrounded score: a controller output of
      25.004 is reported as 25.0 and yet labelled "Low", not "Very Low". */
  lemma LabelUsesUnroundedScore(obs: Observations, districtInfo: Option<map<string, real>>)
    ensures var res := CalculateFvi(obs, districtInfo, _ => Some(25.004));
      res.score == 25.0 && res.riskLevel == Low
  {
    assert 25.004 * 100.0 == 2500.4;
    RoundHalfEvenUnique(2500.4, 2500);
  }
}

=== FILE: numeric.dfy ===
/** The numeric primitives of the Python runtime that the scoring and
    encoding rules rely on. Python floats are modelled as exact reals. */
module Numeric {

  /** `max(lo, min(x, hi))`: Python's `min` keeps its first argument unless
      the second is strictly smaller, `max` unless the second is strictly larger. */
  function Clamp(x: real, lo: real, hi: real): (r: real)
    requires lo <= hi
    ensures lo <= r <= hi
    ensures lo <= x <= hi ==> r == x
    ensures x < lo ==> r == lo
    ensures hi < x ==> r == hi
  {
    var m := if hi < x then hi else x;
    if lo < m then m else lo
  }

  /** Python's `int(x)` on a finite float: truncation toward zero. */
  function Trunc(x: real): (r: int)
    ensures 0.0 <= x ==> r as real <= x < r as real + 1.0
    ensures x < 0.0 ==> r as real - 1.0 < x <= r as real
  {
    if 0.0 <= x then x.Floor else -((-x).Floor)
  }

  /** Truncation is symmetric about zero, unlike flooring. */
  lemma TruncOdd(x: real)
    ensures Trunc(-x) == -Trunc(x)
  {
  }

  /** Python's `round(x)` for a finite float: the nearest integer, ties to even. */
  function RoundHalfEven(x: real): (r: int)
    ensures r as real - 0.5 <= x <= r as real + 0.5
    ensures (x == r as real - 0.5 || x == r as real + 0.5) ==> r % 2 == 0
  {
    var f := x.Floor;
    var d := x - f as real;
    if d < 0.5 then f
    else if d > 0.5 then f + 1
    else if f % 2 == 0 then f
    else f + 1
  }

  /** The two properties in the contract of `RoundHalfEven` single out one integer. */
  lemma RoundHalfEvenUnique(x: real, n: int)
    requires n as real - 0.5 <= x <= n as real + 0.5
    requires (x == n as real - 0.5 || x == n as real + 0.5) ==> n % 2 == 0
    ensures n == RoundHalfEven(x)
  {
  }

  lemma RoundHalfEvenMonotone(x: real, y: real)
    requires x <= y
    ensures RoundHalfEven(x) <= RoundHalfEven(y)
  {
  }

  /** The distance between two reals. */
  function Dist(x: real, y: real): real {
    if x <= y then y - x else x - y
  }

  /** No integer is nearer to `x` than `round(x)`. */
  lemma RoundHalfEvenNearest(x: real, n: int)
    ensures Dist(RoundHalfEven(x) as real, x) <= Dist(n as real, x)
  {
    var m := RoundHalfEven(x);
    assert Dist(m as real, x) <= 0.5;
    if n < m {
      assert n as real <= m as real - 1.0;
    } else if m < n {
      assert m as real + 1.0 <= n as real;
    }
  }

  /** Python's `round(x, 2)`, with the decimal rounding done on exact reals:
      a whole number of hundredths, namely `round(100 * x)` of them. */
  function RoundTo2(x: real): (r: real)
    ensures x - 0.005 <= r <= x + 0.005
    ensures r * 100.0 == RoundHalfEven(x * 100.0) as real
  {
    RoundHalfEven(x * 100.0) as real / 100.0
  }

  /** No multiple of 0.01 is nearer to `x` than `round(x, 2)`. */
  lemma RoundTo2Nearest(x: real, n: int)
    ensures Dist(RoundTo2(x), x) <= Dist(n as real / 100.0, x)
  {
    RoundHalfEvenNearest(x * 100.0, n);
    var m := RoundHalfEven(x * 100.0);
    assert Dist(m as real, x * 100.0) == 100.0 * Dist(RoundTo2(x), x);
    assert Dist(n as real, x * 100.0) == 100.0 * Dist(n as real / 100.0, x);
  }

  /** Rounding to two decimals a second time changes nothing. */
  lemma RoundTo2Idempotent(x: real)
    ensures RoundTo2(RoundTo2(x)) == RoundTo2(x)
  {
    var m := RoundHalfEven(x * 100.0);
    assert RoundTo2(x) * 100.0 == m as real;
    RoundHalfEvenUnique(m as real, m);
  }
}

=== FILE: strings.dfy ===
/** The string primitives of the Python runtime used by the district lookup
    and by `int()`/`float()` on text: whitespace stripping, lower-casing and
    the decimal literal grammar. */
module Strings {
  import opened Wrappers

  /** The characters Python's `str.isspace()` accepts, and hence the ones
      `str.strip()` skips at the edges. `int()` and `float()` skip the same
      ones except the four ASCII separators below. */
  predicate IsSpace(c: char) {
    || ('\t' <= c <= '\r')
    || ('\U{1C}' <= c <= '\U{1F}')
    || c == ' ' || c == '\U{85}' || c == '\U{A0}' || c == '\U{1680}'
    || ('\U{2000}' <= c <= '\U{200A}')
    || c == '\U{2028}' || c == '\U{2029}' || c == '\U{202F}' || c == '\U{205F}' || c == '\U{3000}'
  }

  /** The ASCII file, group, record and unit separators U+001C..U+001F:
      `isspace()` holds for them, but `int()` and `float()` trim only the
      other ASCII whitespace (and every non-ASCII space), so a separator
      anywhere in the text makes them raise. */
  predicate IsSeparator(c: char) {
    '\U{1C}' <= c <= '\U{1F}'
  }

  predicate HasSeparator(s: string) {
    exists i :: 0 <= i < |s| && IsSeparator(s[i])
  }

  predicate AllSpace(s: string) {
    forall i :: 0 <= i < |s| ==> IsSpace(s[i])
  }

  /** No whitespace at either end. */
  predicate Trimmed(s: string) {
    |s| == 0 || (!IsSpace(s[0]) && !IsSpace(s[|s| - 1]))
  }

  /** `s.lstrip()`: drops the longest all-whitespace prefix. */
  function TrimStart(s: string): (r: string)
    ensures |r| <= |s| && r == s[|s| - |r|..]
    ensures AllSpace(s[..|s| - |r|])
    ensures |r| > 0 ==> !IsSpace(r[0])
    decreases |s|
  {
    if |s| > 0 && IsSpace(s[0]) then TrimStart(s[1..]) else s
  }

  /** `s.rstrip()`: drops the longest all-whitespace suffix. */
  function TrimEnd(s: string): (r: string)
    ensures |r| <= |s| && r == s[..|r|]
    ensures AllSpace(s[|r|..])
    ensures |r| > 0 ==> !IsSpace(r[|r| - 1])
    decreases |s|
  {
    if |s| > 0 && IsSpace(s[|s| - 1]) then TrimEnd(s[..|s| - 1]) else s
  }

  /** `s.strip()`. */
  function Strip(s: string): (r: string)
    ensures Trimmed(r)
    ensures |r| <= |s|
  {
    TrimEnd(TrimStart(s))
  }

  lemma {:induction false} TrimStartPadded(pre: string, t: string)
    requires AllSpace(pre)
    requires |t| == 0 || !IsSpace(t[0])
    ensures TrimStart(pre + t) == t
    decreases |pre|
  {
    if |pre| > 0 {
      assert (pre + t)[1..] == pre[1..] + t;
      TrimStartPadded(pre[1..], t);
    } else {
      assert pre + t == t;
    }
  }

  lemma {:induction false} TrimEndPadded(t: string, post: string)
    requires AllSpace(post)
    requires |t| == 0 || !IsSpace(t[|t| - 1])
    ensures TrimEnd(t + post) == t
    decreases |post|
  {
    if |post| > 0 {
      var s := t + post;
      assert s[..|s| - 1] == t + post[..|post| - 1];
      TrimEndPadded(t, post[..|post| - 1]);
    } else {
      assert t + post == t;
    }
  }

  /** Stripping removes exactly the whitespace padding around a trimmed text. */
  lemma StripPadded(pre: string, t: string, post: string)
    requires AllSpace(pre) && AllSpace(post)
    requires Trimmed(t)
    ensures Strip(pre + t + post) == t
  {
    if |t| == 0 {
      assert pre + t + post == pre + post;
      TrimStartPadded(pre + post, "");
      assert pre + post + "" == pre + post;
    } else {
      assert pre + t + post == pre + (t + post);
      TrimStartPadded(pre, t + post);
      TrimEndPadded(t, post);
    }
  }

  lemma TrimStartSplit(s: string) returns (pre: string)
    ensures AllSpace(pre) && s == pre + TrimStart(s)
  {
    pre := s[..|s| - |TrimStart(s)|];
  }

  lemma TrimEndSplit(s: string) returns (post: string)
    ensures AllSpace(post) && s == TrimEnd(s) + post
  {
    post := s[|TrimEnd(s)|..];
  }

  /** Every string is its stripped text between two runs of whitespace. */
  lemma StripSplit(s: string) returns (pre: string, post: string)
    ensures AllSpace(pre) && AllSpace(post)
    ensures s == pre + Strip(s) + post
  {
    pre := TrimStartSplit(s);
    post := TrimEndSplit(TrimStart(s));
    Regroup(pre, Strip(s), post);
  }

  lemma Regroup<T>(a: seq<T>, b: seq<T>, c: seq<T>)
    ensures a + (b + c) == a + b + c
  {
  }

  lemma Regroup5<T>(a: seq<T>, b: seq<T>, c: seq<T>, d: seq<T>, e: seq<T>)
    ensures a + (b + c + d) + e == (a + b) + c + (d + e)
  {
  }

  lemma AllSpaceConcat(a: string, b: string)
    requires AllSpace(a) && AllSpace(b)
    ensures AllSpace(a + b)
  {
  }

  /** Extra whitespace around a string does not change what strip returns. */
  lemma StripAbsorbsPadding(pre: string, s: string, post: string)
    requires AllSpace(pre) && AllSpace(post)
    ensures Strip(pre + s + post) == Strip(s)
  {
    var p, q := StripSplit(s);
    var t := Strip(s);
    Regroup5(pre, p, t, q, post);
    AllSpaceConcat(pre, p);
    AllSpaceConcat(q, post);
    StripPadded(pre + p, t, q + post);
  }

  /** Python's `str.lower()` on one character, for the characters whose
      lower-case form is ASCII: the Latin capitals and the KELVIN SIGN. Every
      other character is kept; its Python lower-case form is not ASCII. */
  function LowerChar(c: char): (r: char)
    ensures 'A' <= c <= 'Z' ==> r as int == c as int + 32
    ensures c == '\U{212A}' ==> r == 'k'
    ensures !('A' <= r <= 'Z')
    ensures !('A' <= c <= 'Z') && c != '\U{212A}' ==> r == c
  {
    if 'A' <= c <= 'Z' then (c as int + 32) as char
    else if c == '\U{212A}' then 'k'
    else c
  }

  function Lower(s: string): (r: string)
    ensures |r| == |s|
    ensures forall i :: 0 <= i < |s| ==> r[i] == LowerChar(s[i])
    ensures forall i :: 0 <= i < |r| ==> !('A' <= r[i] <= 'Z')
  {
    seq(|s|, i requires 0 <= i < |s| => LowerChar(s[i]))
  }

  lemma LowerIdempotent(s: string)
    ensures Lower(Lower(s)) == Lower(s)
  {
  }

  lemma LowerConcat(a: string, b: string)
    ensures Lower(a + b) == Lower(a) + Lower(b)
  {
  }

  lemma LowerCharSpace(c: char)
    ensures IsSpace(LowerChar(c)) <==> IsSpace(c)
  {
  }

  lemma LowerKeepsSpacing(p: string, t: string)
    requires AllSpace(p) && Trimmed(t)
    ensures AllSpace(Lower(p)) && Trimmed(Lower(t))
  {
    forall i | 0 <= i < |p|
      ensures IsSpace(Lower(p)[i])
    {
      LowerCharSpace(p[i]);
    }
    if |t| > 0 {
      LowerCharSpace(t[0]);
      LowerCharSpace(t[|t| - 1]);
    }
  }

  /** Lower-casing neither creates nor removes whitespace, so it commutes with strip. */
  lemma LowerStripCommute(s: string)
    ensures Lower(Strip(s)) == Strip(Lower(s))
  {
    var p, q := StripSplit(s);
    var t := Strip(s);
    LowerConcat(p + t, q);
    LowerConcat(p, t);
    LowerKeepsSpacing(p, t);
    LowerKeepsSpacing(q, "");
    StripPadded(Lower(p), Lower(t), Lower(q));
  }

  // ---- Decimal digits ----

  predicate IsDigit(c: char) {
    '0' <= c <= '9'
  }

  predicate AllDigits(s: string) {
    forall i :: 0 <= i < |s| ==> IsDigit(s[i])
  }

  function DigitValue(c: char): (d: nat)
    requires IsDigit(c)
    ensures d < 10
  {
    c as int - '0' as int
  }

  function DigitChar(d: nat): (c: char)
    requires d < 10
    ensures IsDigit(c) && DigitValue(c) == d
  {
    ('0' as int + d) as char
  }

  /** The value of a run of decimal digits, most significant first. */
  function DigitsValue(s: string): nat
    requires AllDigits(s)
  {
    if |s| == 0 then 0 else DigitsValue(s[..|s| - 1]) * 10 + DigitValue(s[|s| - 1])
  }

  function Pow10(n: nat): (p: nat)
    ensures p >= 1
  {
    if n == 0 then 1 else 10 * Pow10(n - 1)
  }

  /** `str(n)` for a non-negative integer: no leading zeros, at least one digit. */
  function NatToString(n: nat): (s: string)
    ensures |s| > 0 && AllDigits(s)
    ensures |s| > 1 ==> s[0] != '0'
  {
    if n < 10 then [DigitChar(n)] else NatToString(n / 10) + [DigitChar(n % 10)]
  }

  /** `str(n)` for any integer. */
  function IntToString(n: int): string {
    if n < 0 then "-" + NatToString(-n) else NatToString(n)
  }

  /** `str(n)` holds only digits and possibly a minus sign. */
  lemma IntToStringHasNoSeparator(n: int)
    ensures !HasSeparator(IntToString(n))
  {
    var s := IntToString(n);
    forall i | 0 <= i < |s|
      ensures !IsSeparator(s[i])
    {
      if n < 0 && i > 0 {
        assert s[i] == NatToString(-n)[i - 1];
      }
    }
  }

  lemma {:induction false} DigitsValueOfNatToString(n: nat)
    ensures DigitsValue(NatToString(n)) == n
  {
    var s := NatToString(n);
    if n >= 10 {
      DigitsValueOfNatToString(n / 10);
      assert s[..|s| - 1] == NatToString(n / 10);
    }
  }

  /** The longest run of digits starting at `i` ends at `j`. */
  function DigitRun(s: string, i: nat): (j: nat)
    requires i <= |s|
    ensures i <= j <= |s|
    ensures AllDigits(s[i..j])
    ensures j < |s| ==> !IsDigit(s[j])
    decreases |s| - i
  {
    if i < |s| && IsDigit(s[i]) then DigitRun(s, i + 1) else i
  }

  lemma {:induction false} DigitRunOfDigits(s: string, i: nat)
    requires i <= |s|
    requires AllDigits(s)
    ensures DigitRun(s, i) == |s|
    decreases |s| - i
  {
    if i < |s| {
      DigitRunOfDigits(s, i + 1);
    }
  }

  // ---- int() and float() on text ----

  /** A leading '+' or '-' and what follows it: (negative, rest). */
  function SplitSign(t: string): (r: (bool, string))
    ensures |t| > 0 && (t[0] == '+' || t[0] == '-') ==> r == (t[0] == '-', t[1..])
    ensures (|t| == 0 || (t[0] != '+' && t[0] != '-')) ==> r == (false, t)
  {
    if |t| > 0 && (t[0] == '+' || t[0] == '-') then (t[0] == '-', t[1..]) else (false, t)
  }

  /** An optional sign followed by one or more ASCII digits, and nothing else. */
  function SignedDigits(t: string): (r: Option<int>)
    ensures r.Some? <==> |SplitSign(t).1| > 0 && AllDigits(SplitSign(t).1)
  {
    var (neg, digits) := SplitSign(t);
    if |digits| > 0 && AllDigits(digits) then
      var v: int := DigitsValue(digits);
      Some(if neg then -v else v)
    else None
  }

  /** Python's `int(s)` on a string, base 10: surrounding whitespace, an
      optional sign and one or more ASCII digits; None where `int` raises. */
  function ParseInt(s: string): (r: Option<int>)
    ensures r.Some? ==> ParseFiniteFloat(s) == Some(r.value as real)
    ensures HasSeparator(s) ==> r.None?
  {
    IntTextIsFloatText(s);
    if HasSeparator(s) then None else SignedDigits(Strip(s))
  }

  /** Every text `int()` accepts, `float()` accepts as the same number. */
  lemma IntTextIsFloatText(s: string)
    ensures !HasSeparator(s) && SignedDigits(Strip(s)).Some? ==>
      ParseFiniteFloat(s) == Some(SignedDigits(Strip(s)).value as real)
  {
    SignedDigitsIsDecimal(Strip(s));
  }

  lemma SignedDigitsIsDecimal(t: string)
    ensures SignedDigits(t).Some? ==> SignedDecimal(t) == Some(SignedDigits(t).value as real)
  {
    var sp := SplitSign(t);
    if SignedDigits(t).Some? {
      SignedDecimalOfDigits(t, sp.0, sp.1);
    }
  }

  lemma ParseIntOfIntToString(n: int)
    ensures ParseInt(IntToString(n)) == Some(n)
  {
    IntToStringHasNoSeparator(n);
    var m: nat := if n < 0 then -n else n;
    var digits := NatToString(m);
    var s := IntToString(n);
    IntToStringShape(n);
    StripOfTrimmed(s);
    DigitsValueOfNatToString(m);
  }

  /** `str(n)` is the digits of |n|, after a '-' exactly when n is negative. */
  lemma IntToStringShape(n: int)
    ensures var m: nat := if n < 0 then -n else n;
      SplitSign(IntToString(n)) == (n < 0, NatToString(m))
    ensures Trimmed(IntToString(n))
  {
    var m: nat := if n < 0 then -n else n;
    var digits := NatToString(m);
    if n < 0 {
      var s := "-" + digits;
      assert s[1..] == digits;
      assert s[|s| - 1] == digits[|digits| - 1];
    }
  }

  lemma StripOfTrimmed(s: string)
    requires Trimmed(s)
    ensures Strip(s) == s
  {
    assert "" + s + "" == s;
    StripPadded("", s, "");
  }

  /** The exponent part of a float literal: 'e' or 'E', an optional sign and
      digits reaching the end of `t`. */
  function ParseExponent(t: string): Option<int>
  {
    if |t| > 0 && (t[0] == 'e' || t[0] == 'E') then SignedDigits(t[1..]) else None
  }

  function Scale(x: real, e: int): real {
    if e >= 0 then x * Pow10(e) as real else x / Pow10(-e) as real
  }

  /** An unsigned decimal float literal: digits, optionally '.' and more
      digits (at least one digit in all), optionally an exponent. */
  function ParseUnsignedDecimal(t: string): Option<real>
  {
    var i := DigitRun(t, 0);
    var whole := t[..i];
    var j := if i < |t| && t[i] == '.' then DigitRun(t, i + 1) else i;
    var frac := if j == i then "" else t[i + 1..j];
    var mantissa := Mantissa(whole, frac);
    if |whole| + |frac| == 0 then None
    else if j == |t| then Some(mantissa)
    else match ParseExponent(t[j..])
      case Some(e) => Some(Scale(mantissa, e))
      case None => None
  }

  /** The value of the digits before and after the decimal point. */
  function Mantissa(whole: string, frac: string): real
    requires AllDigits(whole) && AllDigits(frac)
  {
    DigitsValue(whole) as real + DigitsValue(frac) as real / Pow10(|frac|) as real
  }

  /** The spellings of infinity and NaN that `float()` accepts, compared after lower-casing. */
  predicate IsNonFiniteName(t: string) {
    var l := Lower(t);
    l == "inf" || l == "infinity" || l == "nan"
  }

  /** An optionally signed finite float literal, and nothing else. */
  function SignedDecimal(t: string): Option<real>
  {
    var (neg, rest) := SplitSign(t);
    var magnitude := ParseUnsignedDecimal(rest);
    if IsNonFiniteName(rest) || magnitude.None? then None
    else Some(if neg then -magnitude.value else magnitude.value)
  }

  /** Python's `float(s)` on a string, on exact reals; None where `float`
      raises and where the text names an infinity or NaN. A decimal literal
      too large for a double, which Python reads as an infinity, is not
      modelled: it yields its exact value here. */
  function ParseFiniteFloat(s: string): (r: Option<real>)
    ensures !HasSeparator(s) && |Strip(s)| > 0 && AllDigits(Strip(s)) ==> r == Some(DigitsValue(Strip(s)) as real)
    ensures IsNonFiniteName(SplitSign(Strip(s)).1) ==> r.None?
    ensures HasSeparator(s) ==> r.None?
  {
    DigitTextIsFloat(Strip(s));
    if HasSeparator(s) then None else SignedDecimal(Strip(s))
  }

  lemma DigitTextIsFloat(t: string)
    ensures |t| > 0 && AllDigits(t) ==> SignedDecimal(t) == Some(DigitsValue(t) as real)
  {
    if |t| > 0 && AllDigits(t) {
      assert IsDigit(t[0]);
      SignedDecimalOfDigits(t, false, t);
    }
  }

  lemma ParseUnsignedDecimalOfDigits(t: string)
    requires |t| > 0 && AllDigits(t)
    ensures ParseUnsignedDecimal(t) == Some(DigitsValue(t) as real)
  {
    DigitRunOfDigits(t, 0);
    assert t[..|t|] == t;
    assert Mantissa(t, "") == DigitsValue(t) as real;
  }

  lemma DigitsAreFinite(t: string)
    requires |t| > 0 && IsDigit(t[0])
    ensures !IsNonFiniteName(t)
  {
    var l := Lower(t);
    assert IsDigit(l[0]);
    assert l != "inf" && l != "infinity" && l != "nan" by {
      assert "inf"[0] == 'i' && "infinity"[0] == 'i' && "nan"[0] == 'n';
    }
  }

  lemma SignedDecimalOfDigits(t: string, neg: bool, digits: string)
    requires SplitSign(t) == (neg, digits)
    requires |digits| > 0 && AllDigits(digits)
    ensures SignedDecimal(t) == Some(if neg then -(DigitsValue(digits) as real) else DigitsValue(digits) as real)
  {
    ParseUnsignedDecimalOfDigits(digits);
    DigitsAreFinite(digits);
  }

  lemma ParseFiniteFloatOfIntToString(n: int)
    ensures ParseFiniteFloat(IntToString(n)) == Some(n as real)
  {
    IntToStringHasNoSeparator(n);
    var m: nat := if n < 0 then -n else n;
    IntToStringShape(n);
    StripOfTrimmed(IntToString(n));
    DigitsValueOfNatToString(m);
    SignedDecimalOfDigits(IntToString(n), n < 0, NatToString(m));
  }
}

=== FILE: values.dfy ===
/** The dynamically typed values that reach the encoders from decoded JSON,
    and what Python's `int()`, `float()` and dictionary lookup make of them. */
module Values {
  import opened Wrappers
  import opened Numeric
  import opened Strings

  /** A value taken from a decoded JSON document: an integer (a Python
      `bool` is one), a finite float, a string, JSON null (`None`), or a JSON
      array or object (a Python list or dict). */
  datatype Value = IntV(i: int) | FloatV(x: real) | StrV(s: string) | NullV | CompositeV

  /** Lists and dicts are unhashable: using one as a dictionary key raises
      `TypeError`. */
  predicate Hashable(v: Value) {
    !v.CompositeV?
  }

  /** `int(v)`, or None where it raises. On a number it truncates the value
      `float(v)` has; on a string it accepts only text `float()` reads as the
      same number; `None`, lists and dicts are rejected. */
  function ToInt(v: Value): (r: Option<int>)
    ensures (v.IntV? || v.FloatV?) ==> r == Some(Trunc(ToFiniteFloat(v).value))
    ensures v.StrV? && r.Some? ==> ToFiniteFloat(v) == Some(r.value as real)
    ensures (v.NullV? || v.CompositeV?) ==> r.None?
    ensures v.StrV? && HasSeparator(v.s) ==> r.None?
  {
    match v
    case IntV(i) => Some(i)
    case FloatV(x) => Some(Trunc(x))
    case StrV(s) => ParseInt(s)
    case NullV => None
    case CompositeV => None
  }

  /** `float(v)` when it yields a finite value, or None where it raises or
      yields an infinity or NaN. Every number converts, to its own value;
      `None`, lists and dicts never do. */
  function ToFiniteFloat(v: Value): (r: Option<real>)
    ensures v.IntV? ==> r == Some(v.i as real)
    ensures v.FloatV? ==> r == Some(v.x)
    ensures (v.NullV? || v.CompositeV?) ==> r.None?
    ensures v.StrV? && HasSeparator(v.s) ==> r.None?
  {
    match v
    case IntV(i) => Some(i as real)
    case FloatV(x) => Some(x)
    case StrV(s) => ParseFiniteFloat(s)
    case NullV => None
    case CompositeV => None
  }

  /** The integer dictionary key that `v` finds: Python compares and hashes
      `1.0` like `1`, while strings, `None` and containers never equal an
      integer. A key is found exactly for numbers with an integral value, and
      it is that value. */
  function IntegralKey(v: Value): (r: Option<int>)
    ensures r.Some? <==> (v.IntV? || v.FloatV?) && ToFiniteFloat(v).value.Floor as real == ToFiniteFloat(v).value
    ensures r.Some? ==> r.value as real == ToFiniteFloat(v).value
  {
    match v
    case IntV(i) => Some(i)
    case FloatV(x) => if x == x.Floor as real then Some(x.Floor) else None
    case StrV(_) => None
    case NullV => None
    case CompositeV => None
  }

  /** A numeral written the way `str()` writes an integer converts back to it. */
  lemma ToIntOfNumeral(n: int)
    ensures ToInt(StrV(IntToString(n))) == Some(n)
    ensures ToFiniteFloat(StrV(IntToString(n))) == Some(n as real)
  {
    ParseIntOfIntToString(n);
    ParseFiniteFloatOfIntToString(n);
  }
}

=== FILE: wrappers.dfy ===
/** The optional-value datatype used where the Python code returns `None`
    or raises an exception that a caller catches. */
module Wrappers {

  datatype Option<+T> = None | Some(value: T)
}
